=== FILE: README.md ===
# kit: a verified model of its decision logic

`kit` is a small GitHub command-line helper written in Rust. It logs in to GitHub with the
OAuth 2.0 Device Authorization Grant (RFC 8628), caches the token in a JSON configuration
file, clones a repository and adds the parent of a fork as the `upstream` remote, and
rewrites commit messages with OpenAI. Most of it is glue around HTTP, `git` subprocesses
and the file system. This Dafny project models the four pieces of real decision logic as
pure functions over immutable datatypes and proves what they promise:

- `commands.dfy` (module `Commands`, `src/commands/mod.rs`): the repository-URL parser
  `resolve`, the `clone` command's choice of outside calls, and the `fork` no-op.
- `auth.dfy` (module `Auth`, `src/auth.rs`): the device-flow `login` and its polling loop,
  run over a finite script of poll responses, and the token accessor `get_github_token`.
- `ai.dfy` (module `Ai`, `src/commands/ai.rs`): the API-key prompt, the extraction of one
  suggestion from a response, and the de-duplicating collection of three suggestions.
- `config.dfy` (module `Config`, `src/config.rs`): the credential store over an abstract
  file system.
- `strings.dfy` (module `Strings`): the Rust `str` operations used above (`trim`,
  `split`, `strip_prefix`, `strip_suffix`), with the split/join round trip.
- `base.dfy` (module `Base`): `Option` and `Result`; an `anyhow` error is its message.

Outside calls are oracles passed in as values or functions: the device-code response,
each poll's response, the browser launch, the GitHub repository lookup, `git clone`,
`git remote add upstream`, each OpenAI exchange, the line typed for the API key and the
selection prompt's answer. The model records what the program sends and does with their
answers: the requests sent, the seconds slept, the calls made and the store written.

Two facts about the store shape the model:

- `save_credentials` builds the whole record from its two arguments and overwrites the
  file (src/config.rs:21-30); nothing merges fields into an existing record. A file
  lacking a field fails to parse, which the model represents as an unparseable file.
- The `Config` record has only the token and the username (src/config.rs:8-11). The
  OpenAI API key lives in a separate cell of the store.

## Model

| member | source | states |
|---|---|---|
| Strings.Trim | src/commands/ai.rs:72 | the result is empty exactly when the input is all whitespace; otherwise it neither starts nor ends with whitespace, and it sits in the input with only whitespace on either side |
| Strings.LeadingSpaces | src/commands/ai.rs:108 | everything before the returned position is whitespace and the character there is not |
| Strings.TrailingStart | src/commands/ai.rs:108 | everything from the returned position on is whitespace and the character before it is not |
| Strings.Split | src/commands/mod.rs:40 | splitting on a character gives one part more than the character's occurrences, and no part contains it |
| Strings.JoinSplit | src/commands/mod.rs:40 | round trip: the parts of a string, joined with the separator, give back the string |
| Strings.SplitJoin | src/commands/mod.rs:49 | separator-free parts joined by the separator split back into exactly those parts |
| Strings.SplitPrefix | src/commands/mod.rs:49 | a separator-free prefix ends up at the front of the first part |
| Strings.StripPrefix | src/commands/mod.rs:37 | succeeds exactly when the prefix is present, and then prefix plus result is the input |
| Strings.StripSuffix | src/commands/mod.rs:38 | succeeds exactly when the suffix is present, and then result plus suffix is the input |
| Commands.OwnerAndName | src/commands/mod.rs:38-42 | an accepted path is `owner/name.git` with neither part containing `/` |
| Commands.Resolve | src/commands/mod.rs:35-56 | a URL with neither prefix gives nothing; an accepted URL re-renders from its parts in HTTPS or SSH form, and neither part contains `/` |
| Commands.ResolveHttpsForm | src/commands/mod.rs:36-43 | past the HTTPS prefix, the rest is parsed as `owner/name.git` |
| Commands.ResolveSshForm | src/commands/mod.rs:44-53 | past the SSH prefix, the rest is parsed as `owner/name.git`; the HTTPS branch is not taken |
| Commands.OwnerAndNameRoundTrip | src/commands/mod.rs:47-51 | separator-free owner and name come back out of `owner/name.git` |
| Commands.ResolveHttpsUrl | src/commands/mod.rs:36-43 | round trip: the HTTPS URL of a separator-free owner and name resolves to them, even when the name itself ends in `.git` |
| Commands.ResolveSshUrl | src/commands/mod.rs:44-53 | round trip: the SSH URL of a separator-free owner and name resolves to them |
| Commands.ResolveExactly | src/commands/mod.rs:35-56 | `resolve` returns `(o, r)` if and only if neither contains `/` and the URL is the HTTPS or SSH URL of `o/r` |
| Commands.OwnerAndNameOneSlash | src/commands/mod.rs:47-51 | before `.git`, a path is accepted exactly when it holds one `/` |
| Commands.ResolveOneSlash | src/commands/mod.rs:40-42 | between a recognised prefix and `.git`, a path is accepted exactly when it holds one `/` |
| Commands.ResolveNeedsSuffix | src/commands/mod.rs:38 | without the `.git` suffix after the prefix nothing is resolved |
| Commands.CloneRepository | src/commands/mod.rs:8-26 | an unparseable URL succeeds with no call made; otherwise the repository lookup comes first and, when it returns, `git clone` of the returned details comes second; a third call can only be `git remote add upstream` in the repository directory with the parent's SSH URL; every call but the last returned, an error is the last call's error, and success means no call failed |
| Commands.UpstreamAddedExactly | src/commands/mod.rs:18-23 | `git remote add upstream` runs if and only if the clone exited successfully, the repository is a fork and has a parent; it runs in the repository directory with the parent's SSH URL |
| Commands.InvalidUrlDoesNothing | src/commands/mod.rs:9-15 | a URL with neither prefix makes no lookup and no clone and succeeds |
| Commands.ForkRepository | src/commands/mod.rs:28-31 | succeeds and calls nothing |
| Config.ConfigPath | src/config.rs:13-19 | the path is the configuration directory followed by `kit` and `config.json`; a missing directory is an error |
| Config.LoadConfig | src/config.rs:32-35 | a record is read exactly when the directory exists and the file holds one |
| Config.LoadToken | src/config.rs:32-37 | returns the saved token; fails when nothing was saved |
| Config.LoadUsername | src/config.rs:39-44 | returns the saved username; fails when nothing was saved |
| Config.SaveCredentials | src/config.rs:21-30 | succeeds exactly when there is a configuration directory; afterwards the loaders return the saved token and username; a failure writes nothing; the key cell is untouched |
| Config.SaveToken | src/auth.rs:69 | afterwards the token loader returns the saved token; a failure writes nothing |
| Config.LoadOpenAiKey | src/commands/ai.rs:63 | returns the key cell when there is a configuration directory |
| Config.SaveOpenAiKey | src/commands/ai.rs:78 | afterwards the key loader returns the saved key; the credentials file is untouched |
| Config.SaveReplaces | src/config.rs:21-30 | a second save leaves the same store as if the first had never happened |
| Config.SaveIgnoresPrior | src/config.rs:22-28 | the record written does not depend on what the file held before |
| Auth.DeviceCodeRequest | src/auth.rs:39-46 | the device request goes to the device endpoint with the client id and scope `read:user public_repo` |
| Auth.TokenRequest | src/auth.rs:54-66 | each poll goes to the token endpoint with the client id, the device code and the device-code grant type |
| Auth.Classify | src/auth.rs:68-79 | an access token stops the loop as authorized whatever the error field says; the loop continues exactly on `authorization_pending` or no field at all; `access_denied` is a denial, any other code c a provider error with c, and a failed request a transport error |
| Auth.Poll | src/auth.rs:52-81 | one interval is slept before every poll, so the seconds slept are polls times interval; every response before the last continued; the first response that does not continue decides the outcome; the loop is still polling exactly when every response continued |
| Auth.Login | src/auth.rs:35-83 | a failed device request or browser launch ends the flow before any sleep or poll; otherwise one token request per poll is sent with the device code obtained, and the way polling ended decides the result: a token is saved through `save_token`, which is the only change to the store, and, with a configuration directory, the login succeeds; `access_denied` fails with `Authorization denied`, any other code c with `OAuth error: c`, a transport error with its message; nothing is saved unless login succeeds |
| Auth.GetGithubToken | src/auth.rs:25-33 | a saved token is returned without logging in; a login error is returned as is; after a successful login the returned token is the one polled |
| Auth.AccessTokenWins | src/auth.rs:68-72 | a response with an access token ends polling with that token whatever its error field says |
| Auth.SlowDownIsFatal | src/auth.rs:74-77 | `slow_down`, after any number of continuing answers, ends the flow with `OAuth error: slow_down` and saves nothing, instead of widening the interval |
| Auth.PendingKeepsPolling | src/auth.rs:74-78 | after k pending or empty responses the loop is still polling, with k polls and k intervals slept |
| Auth.DeniedSavesNothing | src/auth.rs:76 | `access_denied` after any number of continuing responses fails with `Authorization denied`, saves nothing, and counts its polls and sleeps |
| Auth.TwoPollScenario | src/auth.rs:52-72 | interval 5, one pending answer, then a token: two polls, ten seconds asleep, the token stored and returned |
| Ai.BuildRequest | src/commands/ai.rs:84-90 | the request input is the system prompt followed by the original message verbatim as the user's message |
| Ai.ExtractSuggestion | src/commands/ai.rs:92-108 | a suggestion is returned exactly when the status is a success, the body decodes and the first output has a content, and it is that content's trimmed text; the status and empty-output errors are the program's messages |
| Ai.SuggestionPost | src/commands/ai.rs:92-95 | each request goes to the Responses endpoint with the API key as bearer credential and the built request as body |
| Ai.FetchSingleSuggestion | src/commands/ai.rs:83-109 | a suggestion comes back exactly when the reply is a success whose body decodes with a first output holding a content; a failing status gives the program's error; a suggestion has no whitespace at either end |
| Ai.IndexOf | src/commands/ai.rs:121 | the position returned holds the element and nothing before it does |
| Ai.Collect | src/commands/ai.rs:117-127 | the suggestions are the successful fetches' messages, each once, in the order of their first success; failures are skipped |
| Ai.FirstSuccessOrderUnique | src/commands/ai.rs:117-127 | two duplicate-free lists of the same successful messages, both in first-success order, are equal |
| Ai.CollectIsDetermined | src/commands/ai.rs:117-127 | any duplicate-free list of exactly the successful messages in first-success order is the collected list, so the three properties of the loop's result determine it |
| Ai.Attempts | src/commands/ai.rs:118-119 | exactly three fetches are made, the i-th with the same request |
| Ai.GetOrPromptApiKey | src/commands/ai.rs:62-81 | a stored key is returned without prompting or saving; with none stored, the user is always prompted: a failed read is returned as the error, a typed key that is all whitespace is refused and nothing is saved, and any other typed key is trimmed, saved and returned; the credentials file and the configuration directory are never changed |
| Ai.GetPolishedCommitMsg | src/commands/ai.rs:111-138 | the suggestions offered are the collected list of the three fetches (each successful message once, in first-success order); no success is an error; an answered prompt on a non-empty list succeeds with one of the suggestions, a cancelled one fails with `Selection cancelled: ` and the reason |

## Left out

- HTTP, JSON decoding and status codes: every exchange is an already-decoded answer or an
  error message; the concrete `anyhow` texts of I/O and decoding errors are not modelled.
- `src/commands/github.rs` (the REST lookup) and `src/commands/git.rs` (the `git`
  subprocesses) are oracles; only `GetRepoResponse {fork, ssh_url, parent}` and the exit
  status' success are used.
- `src/main.rs` (argument parsing) and `src/http.rs` (the shared client and its timeout).
- The file system: `create_dir_all`, file reads and writes are the abstract `Store`.
  Reading a missing file and parsing a malformed one are the two load failures.
- `save_token`, `load_openai_api_key` and `save_openai_api_key` are not defined in
  `src/config.rs`. `save_token` is modelled after `save_credentials`, a whole-record
  overwrite, with an empty username; the API key is a separate store cell with no merge
  behaviour.
- Config.ConfigPath: directory creation (`create_dir_all`, src/config.rs:16) never fails
  in the model; only a missing configuration directory is an error.
- Config.SaveCredentials: the file write (`fs::write`, src/config.rs:28) never fails in the
  model, so a save fails only when there is no configuration directory. The same holds
  for `save_token`, which `login` calls (src/auth.rs:69), and for the API-key writer.
- `get_client_id` reads an environment variable and panics when it is unset; the client
  id is a parameter.
- Console output, logging, the browser launch (only its success or failure is kept) and
  the flush of standard output before reading the key.
- `thread::sleep`: the seconds slept are counted instead.
- Auth.Poll: the source loop is unbounded over live responses; the model runs over a
  finite script and reports `StillPolling` when the script runs out, so a flow that never
  terminates is not modelled.
- Ai.GetPolishedCommitMsg: the `inquire` selection prompt is an oracle answer, either an
  index taken modulo the list length or a cancellation reason.
- `TEMPERATURE` and the floating-point request field: they do not affect behaviour.
- Strings.Trim: only ASCII whitespace (U+0009 to U+000D and space) is trimmed; Rust's
  `trim` also removes the other Unicode `White_Space` characters.

=== FILE: ai.dfy ===
/** AI-assisted commit messages: the OpenAI API key, one suggestion per request to
    the Responses endpoint, and the de-duplicated list of suggestions the user picks
    from.

    Each HTTP exchange is an oracle answer: whether the status was a success and
    the decoded body (or the decoding error). The interactive prompts are oracle
    values too: the line read for the key and the user's choice.
 */
module Ai {
  import opened Base
  import opened Strings
  import Config

  const NumSuggestions: nat := 3
  const OpenAiUrl: string := "https://api.openai.com/v1/responses"
  const ModelName: string := "gpt-4.1-mini"
  const MaxOutputTokens: int := 40
  const SystemPrompt: string :=
    "You rewrite git commit messages to be professional and follow Conventional Commits. "
    + "Its ok if you skip scope but try to figure out. Output only the commit message. No explanations."

  const EmptyKey: string := "API key cannot be empty"
  const StatusFailed: string := "Failed to get polished commit message"
  const NoOutput: string := "No output in response"
  const NoContent: string := "No content in response"
  const NoSuggestions: string := "Failed to generate any commit message suggestions"
  const SelectionCancelled: string := "Selection cancelled: "

  /** `Message`: one entry of the request's input. */
  datatype Message = Message(role: string, content: string)

  /** `OpenApiRequest` without its floating-point temperature. */
  datatype OpenAiRequest = OpenAiRequest(model: string, parallelToolCalls: bool, maxOutputTokens: int, input: seq<Message>)

  /** `Content`, `Output` and `OpenApiResonse`: the decoded response body. */
  datatype Content = Content(text: string)
  datatype Output = Output(content: seq<Content>)
  datatype OpenAiResponse = OpenAiResponse(output: seq<Output>)

  /** An HTTP exchange as the program sees it: whether the status was a success,
      and the body decoded as an `OpenAiResponse` or the decoding error. */
  datatype Reply = Reply(success: bool, body: Result<OpenAiResponse>)

  /** `fetch_single_suggestion`'s request: the system prompt, then the original
      message verbatim as the user's message. */
  function BuildRequest(original: string): (r: OpenAiRequest)
    ensures |r.input| == 2
    ensures r.input[0] == Message("system", SystemPrompt)
    ensures r.input[1].role == "user" && r.input[1].content == original
    ensures r.model == ModelName && !r.parallelToolCalls && r.maxOutputTokens == MaxOutputTokens
  {
    OpenAiRequest(ModelName, false, MaxOutputTokens, [Message("system", SystemPrompt), Message("user", original)])
  }

  /** The suggestion carried by a reply: the trimmed text of the first content of
      the first output. A failed send, a non-success status, an undecodable body, an
      empty `output` or an empty first `content` is an error. */
  function ExtractSuggestion(reply: Result<Reply>): (r: Result<string>)
    ensures r.Ok? <==>
              && reply.Ok? && reply.value.success && reply.value.body.Ok?
              && |reply.value.body.value.output| > 0
              && |reply.value.body.value.output[0].content| > 0
    ensures r.Ok? ==> r.value == Trim(reply.value.body.value.output[0].content[0].text)
    ensures reply.Ok? && !reply.value.success ==> r == Err(StatusFailed)
    ensures reply.Ok? && reply.value.success && reply.value.body.Ok? && |reply.value.body.value.output| == 0
            ==> r == Err(NoOutput)
  {
    match reply
    case Err(m) => Err(m)
    case Ok(Reply(success, body)) =>
      if !success then Err(StatusFailed)
      else
        match body
        case Err(m) => Err(m)
        case Ok(response) =>
          if |response.output| == 0 then Err(NoOutput)
          else if |response.output[0].content| == 0 then Err(NoContent)
          else Ok(Trim(response.output[0].content[0].text))
  }

  /** An HTTP POST as `fetch_single_suggestion` sends it: the endpoint, the
      `Authorization` header and the JSON body. */
  datatype Post = Post(url: string, authorization: string, body: OpenAiRequest)

  /** The POST carrying one suggestion request: the Responses endpoint, the API key
      as bearer credential and the request built from the original message. */
  function SuggestionPost(apiKey: string, original: string): (p: Post)
    ensures p.url == OpenAiUrl
    ensures p.authorization == "Bearer " + apiKey
    ensures p.body == BuildRequest(original)
  {
    Post(OpenAiUrl, "Bearer " + apiKey, BuildRequest(original))
  }

  /** `fetch_single_suggestion`: `send` answers the `attempt`-th POST. The
      suggestion comes out of the first content of the first output of a
      successful reply, with no whitespace left at either end. */
  function FetchSingleSuggestion(attempt: nat, apiKey: string, original: string,
                                 send: (nat, Post) -> Result<Reply>): (r: Result<string>)
    ensures var reply := send(attempt, SuggestionPost(apiKey, original));
            && (r.Ok? <==>
                  && reply.Ok? && reply.value.success && reply.value.body.Ok?
                  && |reply.value.body.value.output| > 0
                  && |reply.value.body.value.output[0].content| > 0)
            && (reply.Ok? && !reply.value.success ==> r == Err(StatusFailed))
    ensures r.Ok? && r.value != [] ==> !IsSpace(r.value[0]) && !IsSpace(r.value[|r.value| - 1])
  {
    ExtractSuggestion(send(attempt, SuggestionPost(apiKey, original)))
  }

  predicate NoDuplicates<T(==)>(xs: seq<T>) {
    forall i, j :: 0 <= i < j < |xs| ==> xs[i] != xs[j]
  }

  /** The position of the first occurrence of `x` in `xs`. */
  function IndexOf<T(==)>(xs: seq<T>, x: T): (i: nat)
    requires x in xs
    ensures i < |xs| && xs[i] == x && x !in xs[..i]
    decreases |xs|
  {
    if xs[0] == x then 0
    else
      var j := IndexOf(xs[1..], x);
      assert xs[..j + 1] == [xs[0]] + xs[1..][..j];
      j + 1
  }

  /** Any position before which `x` does not occur is its first occurrence. */
  lemma IndexOfUnique<T>(xs: seq<T>, x: T, k: nat)
    requires k < |xs| && xs[k] == x && x !in xs[..k]
    ensures IndexOf(xs, x) == k
  {
  }

  /** Appending does not move a first occurrence. */
  lemma IndexOfAppend<T>(xs: seq<T>, y: T)
    ensures forall x :: x in xs ==> IndexOf(xs + [y], x) == IndexOf(xs, x)
  {
    forall x | x in xs
      ensures IndexOf(xs + [y], x) == IndexOf(xs, x)
    {
      var k := IndexOf(xs, x);
      assert (xs + [y])[..k] == xs[..k];
      IndexOfUnique(xs + [y], x, k);
    }
  }

  /** The `for` loop of `get_polished_commit_msg` over the fetch results: failures
      are skipped, and a successful message is kept unless it is already there.
      The result holds each successful message exactly once, nothing else, and in
      the order of their first successful fetch. */
  function Collect(results: seq<Result<string>>): (s: seq<string>)
    ensures |s| <= |results|
    ensures NoDuplicates(s)
    ensures forall m :: m in s <==> Ok(m) in results
    ensures forall i, j :: 0 <= i < j < |s| ==> IndexOf(results, Ok(s[i])) < IndexOf(results, Ok(s[j]))
    decreases |results|
  {
    if |results| == 0 then []
    else
      var init := results[..|results| - 1];
      var last := results[|results| - 1];
      var prev := Collect(init);
      assert results == init + [last];
      IndexOfAppend(init, last);
      match last
      case Err(_) => prev
      case Ok(m) =>
        if m in prev then prev
        else
          IndexOfUnique(results, Ok(m), |init|);
          prev + [m]
  }

  /** Every element of `s` was fetched successfully, and `s` lists them in the
      order of their first successful fetch. */
  ghost predicate InFirstSuccessOrder(results: seq<Result<string>>, s: seq<string>) {
    && (forall m :: m in s ==> Ok(m) in results)
    && forall i, j :: 0 <= i < j < |s| ==> IndexOf(results, Ok(s[i])) < IndexOf(results, Ok(s[j]))
  }

  /** Two lists of the same elements are both empty or both not. */
  lemma NonEmptyAlike(a: seq<string>, b: seq<string>)
    requires forall m :: m in a <==> m in b
    ensures |a| > 0 <==> |b| > 0
  {
    if |a| > 0 {
      assert a[0] in b;
    }
    if |b| > 0 {
      assert b[0] in a;
    }
  }

  /** Two non-empty lists of the same elements in first-success order end with the
      same element: the one fetched last. */
  lemma LastAgrees(results: seq<Result<string>>, a: seq<string>, b: seq<string>)
    requires |a| > 0 && |b| > 0
    requires forall m :: m in a <==> m in b
    requires InFirstSuccessOrder(results, a) && InFirstSuccessOrder(results, b)
    ensures a[|a| - 1] == b[|b| - 1]
  {
    assert a[|a| - 1] in b && b[|b| - 1] in a;
  }

  /** Dropping the last element keeps a list duplicate-free and in order, and
      removes exactly that element. */
  lemma DropLast(results: seq<Result<string>>, a: seq<string>)
    requires |a| > 0 && NoDuplicates(a) && InFirstSuccessOrder(results, a)
    ensures NoDuplicates(a[..|a| - 1]) && InFirstSuccessOrder(results, a[..|a| - 1])
    ensures forall m :: m in a[..|a| - 1] <==> m in a && m != a[|a| - 1]
  {
    var a' := a[..|a| - 1];
    assert a == a' + [a[|a| - 1]];
    assert forall i :: 0 <= i < |a'| ==> a'[i] == a[i];
  }

  /** Two duplicate-free lists of the same elements, both in first-success order,
      are the same list. */
  lemma {:induction false} FirstSuccessOrderUnique(results: seq<Result<string>>, a: seq<string>, b: seq<string>)
    requires NoDuplicates(a) && NoDuplicates(b)
    requires forall m :: m in a <==> m in b
    requires InFirstSuccessOrder(results, a) && InFirstSuccessOrder(results, b)
    ensures a == b
    decreases |a|
  {
    NonEmptyAlike(a, b);
    if |a| > 0 {
      LastAgrees(results, a, b);
      DropLast(results, a);
      DropLast(results, b);
      var a', b' := a[..|a| - 1], b[..|b| - 1];
      forall m
        ensures m in a' <==> m in b'
      {
        assert m in a' <==> m in a && m != a[|a| - 1];
        assert m in b' <==> m in b && m != b[|b| - 1];
      }
      FirstSuccessOrderUnique(results, a', b');
      assert a == a' + [a[|a| - 1]] && b == b' + [b[|b| - 1]];
    }
  }

  /** The collected suggestions are the only list with `Collect`'s three
      properties, so those properties define the loop's result. */
  lemma CollectIsDetermined(results: seq<Result<string>>, s: seq<string>)
    requires NoDuplicates(s)
    requires forall m :: m in s <==> Ok(m) in results
    requires forall i, j :: 0 <= i < j < |s| ==> IndexOf(results, Ok(s[i])) < IndexOf(results, Ok(s[j]))
    ensures s == Collect(results)
  {
    var c := Collect(results);
    assert InFirstSuccessOrder(results, s);
    assert InFirstSuccessOrder(results, c);
    FirstSuccessOrderUnique(results, s, c);
  }

  /** The result of `get_or_prompt_api_key`, the store after it and whether the
      user was asked for a key. */
  datatype KeyRun = KeyRun(result: Result<string>, store: Config.Store, prompted: bool)

  /** `get_or_prompt_api_key`: a stored key is returned without prompting or
      saving; otherwise `line`, the line read from standard input, is trimmed,
      refused when empty, and saved before it is returned. */
  function GetOrPromptApiKey(store: Config.Store, line: Result<string>): (run: KeyRun)
    ensures Config.LoadOpenAiKey(store).Err? ==> run == KeyRun(Err(Config.LoadOpenAiKey(store).msg), store, false)
    ensures Config.LoadOpenAiKey(store).Ok? && Config.LoadOpenAiKey(store).value.Some? ==>
              run == KeyRun(Ok(Config.LoadOpenAiKey(store).value.value), store, false)
    ensures run.prompted ==> Config.LoadOpenAiKey(store) == Ok(None)
    ensures Config.LoadOpenAiKey(store) == Ok(None) ==> run.prompted
    ensures Config.LoadOpenAiKey(store) == Ok(None) && line.Err? ==> run == KeyRun(Err(line.msg), store, true)
    ensures Config.LoadOpenAiKey(store) == Ok(None) && line.Ok? && AllSpace(line.value) ==>
              run == KeyRun(Err(EmptyKey), store, true)
    ensures run.prompted && run.result.Ok? ==>
              && line.Ok? && run.result.value == Trim(line.value) && run.result.value != ""
              && Config.LoadOpenAiKey(run.store) == Ok(Some(run.result.value))
    ensures run.result.Err? ==> run.store == store
    ensures run.store.file == store.file && run.store.configDir == store.configDir
    ensures Config.LoadOpenAiKey(store) == Ok(None) && line.Ok? && !AllSpace(line.value) ==>
              run.prompted && run.result == Ok(Trim(line.value))
              && Config.LoadOpenAiKey(run.store) == Ok(Some(Trim(line.value)))
  {
    match Config.LoadOpenAiKey(store)
    case Err(m) => KeyRun(Err(m), store, false)
    case Ok(Some(key)) => KeyRun(Ok(key), store, false)
    case Ok(None) =>
      match line
      case Err(m) => KeyRun(Err(m), store, true)
      case Ok(text) =>
        var key := Trim(text);
        if key == "" then KeyRun(Err(EmptyKey), store, true)
        else
          var w := Config.SaveOpenAiKey(store, key);
          match w.result
          case Err(m) => KeyRun(Err(m), w.store, true)
          case Ok(_) => KeyRun(Ok(key), w.store, true)
  }

  /** The results of the `NumSuggestions` fetches, in the order they were made. */
  function Attempts(apiKey: string, original: string,
                    send: (nat, Post) -> Result<Reply>): (results: seq<Result<string>>)
    ensures |results| == NumSuggestions
    ensures forall i :: 0 <= i < NumSuggestions ==> results[i] == FetchSingleSuggestion(i, apiKey, original, send)
  {
    seq(NumSuggestions, i requires 0 <= i => FetchSingleSuggestion(i, apiKey, original, send))
  }

  /** The result of `get_polished_commit_msg`, the store after it and the
      suggestions offered. */
  datatype PolishRun = PolishRun(result: Result<string>, store: Config.Store, suggestions: seq<string>)

  /** `get_polished_commit_msg`. `line` is the key typed if none is stored, `send`
      answers each request and `choice` is the selection prompt's answer: an index
      into the offered list (taken modulo its length) or the reason it was
      cancelled. */
  function GetPolishedCommitMsg(store: Config.Store, line: Result<string>, original: string,
                                send: (nat, Post) -> Result<Reply>,
                                choice: Result<nat>): (run: PolishRun)
    ensures var key := GetOrPromptApiKey(store, line);
            && run.store == key.store
            && (key.result.Err? ==> run == PolishRun(Err(key.result.msg), key.store, []))
    ensures |run.suggestions| <= NumSuggestions
    ensures NoDuplicates(run.suggestions)
    ensures run.result.Ok? ==> run.result.value in run.suggestions
    ensures GetOrPromptApiKey(store, line).result.Ok? ==>
              forall m :: m in run.suggestions <==>
                exists i :: 0 <= i < NumSuggestions
                            && FetchSingleSuggestion(i, GetOrPromptApiKey(store, line).result.value, original, send) == Ok(m)
    ensures GetOrPromptApiKey(store, line).result.Ok? ==>
              run.suggestions == Collect(Attempts(GetOrPromptApiKey(store, line).result.value, original, send))
    ensures GetOrPromptApiKey(store, line).result.Ok? && run.suggestions == [] ==> run.result == Err(NoSuggestions)
    ensures choice.Ok? && run.suggestions != [] ==> run.result.Ok?
    ensures choice.Err? && run.suggestions != [] ==> run.result == Err(SelectionCancelled + choice.msg)
  {
    var key := GetOrPromptApiKey(store, line);
    match key.result
    case Err(m) => PolishRun(Err(m), key.store, [])
    case Ok(apiKey) =>
      var results := Attempts(apiKey, original, send);
      var suggestions := Collect(results);
      if suggestions == [] then PolishRun(Err(NoSuggestions), key.store, suggestions)
      else
        match choice
        case Err(reason) => PolishRun(Err(SelectionCancelled + reason), key.store, suggestions)
        case Ok(k) => PolishRun(Ok(suggestions[k % |suggestions|]), key.store, suggestions)
  }
}

=== FILE: auth.dfy ===
/** GitHub login through the OAuth 2.0 Device Authorization Grant (RFC 8628) and the
    token accessor in front of it.

    The device-code response, each poll's response and the browser launch are
    oracle values handed in; the unbounded polling loop runs over a finite script
    of poll responses, and `thread::sleep` is replaced by a count of the seconds
    slept.
 */
module Auth {
  import opened Base
  import Config

  const DeviceCodeUrl: string := "https://github.com/login/device/code"
  const TokenUrl: string := "https://github.com/login/oauth/access_token"
  const Scope: string := "read:user public_repo"
  /** The grant type of a device access token request, section 3.4 of RFC 8628. */
  const DeviceGrantType: string := "urn:ietf:params:oauth:grant-type:device_code"
  const AuthorizationPending: string := "authorization_pending"
  const AccessDenied: string := "access_denied"
  const DeniedMessage: string := "Authorization denied"
  const OAuthErrorPrefix: string := "OAuth error: "

  /** `DeviceCodeResponse`; `interval` is the poll spacing in seconds (a `u64`). */
  datatype DeviceCodeResponse =
    DeviceCodeResponse(deviceCode: string, userCode: string, verificationUri: string, interval: nat)

  /** `TokenResponse`: either field may be absent. */
  datatype TokenResponse = TokenResponse(accessToken: Option<string>, error: Option<string>)

  /** A form-encoded request body as the ordered list of its fields. */
  type Form = seq<(string, string)>

  datatype Request = Request(url: string, form: Form)

  /** The value of the first field named `key`, if any. */
  function Lookup(form: Form, key: string): Option<string>
    decreases |form|
  {
    if |form| == 0 then None
    else if form[0].0 == key then Some(form[0].1)
    else Lookup(form[1..], key)
  }

  /** The device authorization request of section 3.1 of RFC 8628. */
  function DeviceCodeRequest(clientId: string): (r: Request)
    ensures r.url == DeviceCodeUrl
    ensures Lookup(r.form, "client_id") == Some(clientId)
    ensures Lookup(r.form, "scope") == Some(Scope)
    ensures |r.form| == 2
  {
    Request(DeviceCodeUrl, [("client_id", clientId), ("scope", Scope)])
  }

  /** The device access token request of section 3.4 of RFC 8628. */
  function TokenRequest(clientId: string, deviceCode: string): (r: Request)
    ensures r.url == TokenUrl
    ensures Lookup(r.form, "client_id") == Some(clientId)
    ensures Lookup(r.form, "device_code") == Some(deviceCode)
    ensures Lookup(r.form, "grant_type") == Some(DeviceGrantType)
    ensures |r.form| == 3
  {
    var form := [("client_id", clientId), ("device_code", deviceCode), ("grant_type", DeviceGrantType)];
    assert Lookup(form[2..], "grant_type") == Some(DeviceGrantType);
    assert Lookup(form[1..], "grant_type") == Lookup(form[2..], "grant_type");
    Request(TokenUrl, form)
  }

  /** How polling ended. `StillPolling` means the script ran out while the loop
      would have gone on. */
  datatype Outcome =
    | Authorized(token: string)
    | Denied
    | ProviderError(code: string)
    | TransportError(msg: string)
    | StillPolling

  /** What one poll response makes the loop do. */
  datatype Step = Continue | Stop(outcome: Outcome)

  /** One iteration's decision. A transport or decoding failure ends the loop; an
      access token ends it whatever the `error` field says; `authorization_pending`
      and a response with neither field continue; `access_denied` is a denial and
      any other error code, `slow_down` and `expired_token` included, is fatal. */
  function Classify(response: Result<TokenResponse>): (step: Step)
    ensures response.Err? ==> step == Stop(TransportError(response.msg))
    ensures response.Ok? && response.value.accessToken.Some? ==>
              step == Stop(Authorized(response.value.accessToken.value))
    ensures step.Continue? <==>
              && response.Ok? && response.value.accessToken.None?
              && (response.value.error.None? || response.value.error == Some(AuthorizationPending))
    ensures response == Ok(TokenResponse(None, Some(AccessDenied))) ==> step == Stop(Denied)
    ensures (response.Ok? && response.value.accessToken.None? && response.value.error.Some?
             && response.value.error.value != AuthorizationPending && response.value.error.value != AccessDenied)
            ==> step == Stop(ProviderError(response.value.error.value))
  {
    match response
    case Err(m) => Stop(TransportError(m))
    case Ok(TokenResponse(Some(token), _)) => Stop(Authorized(token))
    case Ok(TokenResponse(None, None)) => Continue
    case Ok(TokenResponse(None, Some(code))) =>
      if code == AuthorizationPending then Continue
      else if code == AccessDenied then Stop(Denied)
      else Stop(ProviderError(code))
  }

  /** The polling loop's result: how it ended, how many polls it sent and how many
      seconds it slept. */
  datatype PollRun = PollRun(outcome: Outcome, polls: nat, slept: nat)

  /** The `loop` of `login` over the scripted responses. Every poll is preceded by
      one sleep of `interval` seconds, the first one included. The first response
      that does not continue decides the outcome; if there is none, every response
      was consumed and the loop is still polling. */
  function Poll(interval: nat, script: seq<Result<TokenResponse>>): (run: PollRun)
    ensures run.polls <= |script|
    ensures run.slept == run.polls * interval
    ensures forall i :: 0 <= i < run.polls - 1 ==> Classify(script[i]).Continue?
    ensures run.outcome.StillPolling? <==> run.polls == |script| && forall i :: 0 <= i < |script| ==> Classify(script[i]).Continue?
    ensures !run.outcome.StillPolling? ==> run.polls >= 1 && Classify(script[run.polls - 1]) == Stop(run.outcome)
    decreases |script|
  {
    if |script| == 0 then PollRun(StillPolling, 0, 0)
    else
      match Classify(script[0])
      case Stop(outcome) => PollRun(outcome, 1, interval)
      case Continue =>
        var rest := Poll(interval, script[1..]);
        PollRun(rest.outcome, rest.polls + 1, rest.slept + interval)
  }

  /** The status of a blocking call that may still be waiting on the provider. */
  datatype Status<+T> = Finished(result: Result<T>) | Polling

  /** The result of `login`, the store after it, the requests it sent and the
      seconds it slept. */
  datatype LoginRun = LoginRun(status: Status<()>, store: Config.Store, requests: seq<Request>, slept: nat)

  /** `login`. `device` is the answer to the device authorization request,
      `browser` the result of opening the verification URI and `script` the
      answers to successive token requests. */
  function Login(store: Config.Store, clientId: string, device: Result<DeviceCodeResponse>,
                 browser: Result<()>, script: seq<Result<TokenResponse>>): (run: LoginRun)
    // The device authorization request is always sent first; a failure there, or
    // in opening the browser, ends the flow before any sleep or poll.
    ensures |run.requests| >= 1 && run.requests[0] == DeviceCodeRequest(clientId)
    ensures device.Err? ==> run.status == Finished(Err(device.msg))
    ensures device.Ok? && browser.Err? ==> run.status == Finished(Err(browser.msg))
    ensures device.Err? || browser.Err? ==> |run.requests| == 1 && run.slept == 0 && run.store == store
    // Every later request polls with the device code obtained, after one interval.
    ensures device.Ok? ==>
              && (forall i :: 1 <= i < |run.requests| ==> run.requests[i] == TokenRequest(clientId, device.value.deviceCode))
              && run.slept == (|run.requests| - 1) * device.value.interval
    // A token is saved only by a successful login, and it is the token polled.
    ensures run.status != Finished(Ok(())) ==> run.store == store
    ensures run.status == Finished(Ok(())) ==>
              && device.Ok? && browser.Ok?
              && var outcome := Poll(device.value.interval, script).outcome;
              && outcome.Authorized?
              && Config.LoadToken(run.store) == Ok(outcome.token)
    ensures run.status.Polling? <==>
              device.Ok? && browser.Ok? && Poll(device.value.interval, script).outcome.StillPolling?
    // Once the browser opened, one token request is sent per poll, and the way
    // polling ended decides the result.
    ensures device.Ok? && browser.Ok? ==>
              var p := Poll(device.value.interval, script);
              && |run.requests| == 1 + p.polls
              && (p.outcome.Authorized? ==>
                    && run.status == Finished(Config.SaveToken(store, p.outcome.token).result)
                    && run.store == Config.SaveToken(store, p.outcome.token).store)
              && (p.outcome.Authorized? && store.configDir.Some? ==> run.status == Finished(Ok(())))
              && (p.outcome.Denied? ==> run.status == Finished(Err(DeniedMessage)))
              && (p.outcome.ProviderError? ==> run.status == Finished(Err(OAuthErrorPrefix + p.outcome.code)))
              && (p.outcome.TransportError? ==> run.status == Finished(Err(p.outcome.msg)))
  {
    var first := [DeviceCodeRequest(clientId)];
    match device
    case Err(m) => LoginRun(Finished(Err(m)), store, first, 0)
    case Ok(d) =>
      match browser
      case Err(m) => LoginRun(Finished(Err(m)), store, first, 0)
      case Ok(_) =>
        var run := Poll(d.interval, script);
        var requests := first + seq(run.polls, _ => TokenRequest(clientId, d.deviceCode));
        match run.outcome
        case Authorized(token) =>
          var w := Config.SaveToken(store, token);
          LoginRun(Finished(w.result), w.store, requests, run.slept)
        case StillPolling => LoginRun(Polling, store, requests, run.slept)
        case Denied => LoginRun(Finished(Err(DeniedMessage)), store, requests, run.slept)
        case ProviderError(code) => LoginRun(Finished(Err(OAuthErrorPrefix + code)), store, requests, run.slept)
        case TransportError(m) => LoginRun(Finished(Err(m)), store, requests, run.slept)
  }

  /** The result of `get_github_token`, the store after it, and whether it ran
      `login`. */
  datatype TokenRun = TokenRun(status: Status<string>, store: Config.Store, loggedIn: bool)

  /** `get_github_token`: a saved token is returned as is; otherwise `login` runs,
      its failure is returned without reading the store again, and on success the
      store is read again. */
  function GetGithubToken(store: Config.Store, clientId: string, device: Result<DeviceCodeResponse>,
                          browser: Result<()>, script: seq<Result<TokenResponse>>): (run: TokenRun)
    ensures Config.LoadToken(store).Ok? ==> run == TokenRun(Finished(Config.LoadToken(store)), store, false)
    ensures Config.LoadToken(store).Err? ==>
              var login := Login(store, clientId, device, browser, script);
              && run.loggedIn && run.store == login.store
              && (login.status.Polling? ==> run.status.Polling?)
              && (login.status.Finished? && login.status.result.Err? ==> run.status == Finished(Err(login.status.result.msg)))
              && (login.status == Finished(Ok(())) ==>
                    run.status == Finished(Ok(Poll(device.value.interval, script).outcome.token)))
  {
    match Config.LoadToken(store)
    case Ok(token) => TokenRun(Finished(Ok(token)), store, false)
    case Err(_) =>
      var login := Login(store, clientId, device, browser, script);
      match login.status
      case Polling => TokenRun(Polling, login.store, true)
      case Finished(Err(m)) => TokenRun(Finished(Err(m)), login.store, true)
      case Finished(Ok(_)) => TokenRun(Finished(Config.LoadToken(login.store)), login.store, true)
  }

  /** An access token ends the loop whatever the `error` field carries. */
  lemma AccessTokenWins(token: string, error: Option<string>)
    ensures Classify(Ok(TokenResponse(Some(token), error))) == Stop(Authorized(token))
  {
  }

  /** `slow_down` is not treated as a continuation: however many continuing
      answers came before it, it ends the flow as an OAuth error, saving nothing,
      instead of increasing the interval as section 3.5 of RFC 8628 asks. */
  lemma SlowDownIsFatal(store: Config.Store, clientId: string, d: DeviceCodeResponse,
                        script: seq<Result<TokenResponse>>, pending: nat)
    requires pending < |script|
    requires forall i :: 0 <= i < pending ==> Classify(script[i]).Continue?
    requires script[pending] == Ok(TokenResponse(None, Some("slow_down")))
    ensures var run := Login(store, clientId, Ok(d), Ok(()), script);
            run.status == Finished(Err("OAuth error: slow_down")) && run.store == store
            && |run.requests| == pending + 2 && run.slept == (pending + 1) * d.interval
  {
    assert Classify(script[pending]) == Stop(ProviderError("slow_down"));
    assert OAuthErrorPrefix + "slow_down" == "OAuth error: slow_down";
  }

  /** Pending responses, and responses with neither field, never end the loop and
      never change the interval: after k of them, k polls were sent and k intervals
      slept. */
  lemma {:induction false} PendingKeepsPolling(interval: nat, script: seq<Result<TokenResponse>>)
    requires forall i :: 0 <= i < |script| ==>
               script[i] == Ok(TokenResponse(None, Some(AuthorizationPending))) || script[i] == Ok(TokenResponse(None, None))
    ensures Poll(interval, script) == PollRun(StillPolling, |script|, |script| * interval)
    decreases |script|
  {
    if |script| > 0 {
      PendingKeepsPolling(interval, script[1..]);
    }
  }

  /** A denial saves nothing and fails with "Authorization denied", however many
      pending answers came before it. */
  lemma DeniedSavesNothing(store: Config.Store, clientId: string, d: DeviceCodeResponse,
                           script: seq<Result<TokenResponse>>, pending: nat)
    requires pending < |script|
    requires forall i :: 0 <= i < pending ==> Classify(script[i]).Continue?
    requires script[pending] == Ok(TokenResponse(None, Some(AccessDenied)))
    ensures var run := Login(store, clientId, Ok(d), Ok(()), script);
            run.status == Finished(Err(DeniedMessage)) && run.store == store
            && |run.requests| == pending + 2 && run.slept == (pending + 1) * d.interval
  {
  }

  /** A device code response of interval 5, one pending answer and then a token:
      two polls, ten seconds asleep, and the token is the one stored and returned. */
  lemma TwoPollScenario(store: Config.Store, clientId: string)
    requires store.configDir.Some? && store.file.Missing?
    ensures var d := DeviceCodeResponse("d1", "ABCD-1234", "https://github.com/login/device", 5);
            var script := [Ok(TokenResponse(None, Some(AuthorizationPending))), Ok(TokenResponse(Some("ghu_xxx"), None))];
            var login := Login(store, clientId, Ok(d), Ok(()), script);
            && login.status == Finished(Ok(()))
            && |login.requests| == 3 && login.slept == 10
            && Config.LoadToken(login.store) == Ok("ghu_xxx")
            && GetGithubToken(store, clientId, Ok(d), Ok(()), script).status == Finished(Ok("ghu_xxx"))
  {
    var d := DeviceCodeResponse("d1", "ABCD-1234", "https://github.com/login/device", 5);
    var script := [Ok(TokenResponse(None, Some(AuthorizationPending))), Ok(TokenResponse(Some("ghu_xxx"), None))];
    assert script[1..] == [script[1]];
    assert Poll(5, script[1..]) == PollRun(Authorized("ghu_xxx"), 1, 5);
    assert Poll(5, script) == PollRun(Authorized("ghu_xxx"), 2, 10);
  }
}

=== FILE: base.dfy ===
/** Failure-carrying values shared by every part of the model.

    The program uses Rust's `Option<T>` for absent values and `anyhow::Result<T>`
    for every fallible call. An `anyhow` error is only ever displayed, so it is
    modelled by its message.
 */
module Base {

  datatype Option<+T> = None | Some(value: T)

  /** `anyhow::Result<T>`: a value, or an error carrying its display message. */
  datatype Result<+T> = Ok(value: T) | Err(msg: string)
}

=== FILE: commands.dfy ===
/** The `clone` and `fork` commands: parsing a GitHub repository URL into owner and
    repository name, and the decision of which outside calls `clone` makes.

    The GitHub REST call and the `git` subprocesses are oracles handed in as
    functions; the model records, as a list of effects, which of them the command
    invokes and with which arguments.
 */
module Commands {
  import opened Base
  import opened Strings

  const HttpsPrefix: string := "https://github.com/"
  const SshPrefix: string := "git@github.com:"
  const GitSuffix: string := ".git"

  /** The HTTPS clone URL of `owner/name`. */
  function HttpsUrl(owner: string, name: string): string {
    HttpsPrefix + owner + "/" + name + GitSuffix
  }

  /** The SSH clone URL of `owner/name`. */
  function SshUrl(owner: string, name: string): string {
    SshPrefix + owner + "/" + name + GitSuffix
  }

  /** What both branches of `resolve` do once the scheme prefix is gone: strip one
      `.git`, split on `/` and accept exactly two parts. */
  function OwnerAndName(rest: string): (r: Option<(string, string)>)
    ensures r.Some? ==> '/' !in r.value.0 && '/' !in r.value.1
    ensures r.Some? ==> rest == r.value.0 + "/" + r.value.1 + GitSuffix
  {
    match StripSuffix(rest, GitSuffix)
    case None => None
    case Some(path) =>
      var parts := Split(path, '/');
      if |parts| == 2 then
        JoinSplit(path, '/');
        assert Join(parts, '/') == parts[0] + ['/'] + parts[1];
        Some((parts[0], parts[1]))
      else
        None
  }

  /** `resolve`: the owner and repository name of a GitHub clone URL in HTTPS or
      SSH form. Whatever it returns re-renders to the URL it was given, and neither
      part contains `/`. */
  function Resolve(url: string): (r: Option<(string, string)>)
    ensures !(HttpsPrefix <= url) && !(SshPrefix <= url) ==> r.None?
    ensures r.Some? ==> '/' !in r.value.0 && '/' !in r.value.1
    ensures r.Some? ==> url == HttpsUrl(r.value.0, r.value.1) || url == SshUrl(r.value.0, r.value.1)
  {
    if HttpsPrefix <= url then
      match StripPrefix(url, HttpsPrefix)
      case None => None
      case Some(path) => OwnerAndName(path)
    else if SshPrefix <= url then
      match StripPrefix(url, SshPrefix)
      case None => None
      case Some(path) => OwnerAndName(path)
    else
      None
  }

  /** Past the HTTPS prefix, `resolve` is `OwnerAndName` of the rest. */
  lemma ResolveHttpsForm(rest: string)
    ensures Resolve(HttpsPrefix + rest) == OwnerAndName(rest)
  {
  }

  /** Past the SSH prefix, `resolve` is `OwnerAndName` of the rest. */
  lemma ResolveSshForm(rest: string)
    ensures Resolve(SshPrefix + rest) == OwnerAndName(rest)
  {
    var url := SshPrefix + rest;
    assert url[0] != HttpsPrefix[0];
    assert SshPrefix <= url;
    assert url[|SshPrefix|..] == rest;
  }

  /** Separator-free `owner` and `name` come back out of `owner/name.git`. */
  lemma OwnerAndNameRoundTrip(owner: string, name: string)
    requires '/' !in owner && '/' !in name
    ensures OwnerAndName(owner + "/" + name + GitSuffix) == Some((owner, name))
  {
    var rest := owner + "/" + name + GitSuffix;
    var path := owner + "/" + name;
    assert rest == path + GitSuffix;
    assert StripSuffix(rest, GitSuffix) == Some(path);
    assert Join([owner, name], '/') == path;
    SplitJoin([owner, name], '/');
  }

  /** Round trip through the HTTPS form. Only one `.git` is stripped, so `name`
      may itself end in `.git`. */
  lemma ResolveHttpsUrl(owner: string, name: string)
    requires '/' !in owner && '/' !in name
    ensures Resolve(HttpsUrl(owner, name)) == Some((owner, name))
  {
    var rest := owner + "/" + name + GitSuffix;
    assert HttpsUrl(owner, name) == HttpsPrefix + rest;
    ResolveHttpsForm(rest);
    OwnerAndNameRoundTrip(owner, name);
  }

  /** Round trip through the SSH form. */
  lemma ResolveSshUrl(owner: string, name: string)
    requires '/' !in owner && '/' !in name
    ensures Resolve(SshUrl(owner, name)) == Some((owner, name))
  {
    var rest := owner + "/" + name + GitSuffix;
    assert SshUrl(owner, name) == SshPrefix + rest;
    ResolveSshForm(rest);
    OwnerAndNameRoundTrip(owner, name);
  }

  /** `resolve` accepts exactly the URLs built from a separator-free owner and name,
      in either form, and then returns that owner and name. */
  lemma ResolveExactly(url: string, owner: string, name: string)
    ensures Resolve(url) == Some((owner, name))
            <==> '/' !in owner && '/' !in name
                 && (url == HttpsUrl(owner, name) || url == SshUrl(owner, name))
  {
    if '/' !in owner && '/' !in name {
      if url == HttpsUrl(owner, name) {
        ResolveHttpsUrl(owner, name);
      } else if url == SshUrl(owner, name) {
        ResolveSshUrl(owner, name);
      }
    }
  }

  /** Before a `.git` suffix, a path is accepted exactly when it holds one `/`. */
  lemma OwnerAndNameOneSlash(path: string)
    ensures OwnerAndName(path + GitSuffix).Some? <==> Count(path, '/') == 1
  {
  }

  /** After a recognised prefix and before a `.git` suffix, the path is accepted
      exactly when it holds one `/`. */
  lemma ResolveOneSlash(prefix: string, path: string)
    requires prefix == HttpsPrefix || prefix == SshPrefix
    ensures Resolve(prefix + path + GitSuffix).Some? <==> Count(path, '/') == 1
  {
    var rest := path + GitSuffix;
    assert prefix + path + GitSuffix == prefix + rest;
    if prefix == HttpsPrefix {
      ResolveHttpsForm(rest);
    } else {
      ResolveSshForm(rest);
    }
    OwnerAndNameOneSlash(path);
  }

  /** Without the `.git` suffix after the prefix, nothing is resolved. */
  lemma ResolveNeedsSuffix(prefix: string, rest: string)
    requires prefix == HttpsPrefix || prefix == SshPrefix
    requires !IsSuffix(GitSuffix, rest)
    ensures Resolve(prefix + rest).None?
  {
  }

  /** `ParentRepoInfo`. */
  datatype ParentRepoInfo = ParentRepoInfo(sshUrl: string)

  /** `GetRepoResponse`: the fields of the GitHub repository record the command uses. */
  datatype RepoDetails = RepoDetails(fork: bool, sshUrl: string, parent: Option<ParentRepoInfo>)

  /** A call the command makes to the outside world. */
  datatype Effect =
    | FetchDetails(owner: string, name: string)  // github::get_repo_details
    | GitClone(repo: RepoDetails)                // git clone <ssh_url>
    | AddUpstream(dir: string, parentUrl: string) // git remote add upstream <url>, run in dir

  /** The command's result and the calls it made, in order. */
  datatype Run = Run(result: Result<()>, effects: seq<Effect>)

  /** Whether the oracle answering `e` reported an error (a `?` that returns early). */
  function Answer(e: Effect,
                  details: (string, string) -> Result<RepoDetails>,
                  clone: RepoDetails -> Result<bool>,
                  addUpstream: (string, string) -> Result<bool>): Result<()>
  {
    match e
    case FetchDetails(o, n) => if details(o, n).Err? then Err(details(o, n).msg) else Ok(())
    case GitClone(d) => if clone(d).Err? then Err(clone(d).msg) else Ok(())
    case AddUpstream(dir, u) => if addUpstream(dir, u).Err? then Err(addUpstream(dir, u).msg) else Ok(())
  }

  /** `clone_repository`. `details` stands for the GitHub REST call, `clone` for
      `git clone` (its boolean is the exit status' success) and `addUpstream` for
      `git remote add upstream`. An unparseable URL is reported and then succeeds
      without any call; every call that fails ends the command with its error; a
      clone that exits unsuccessfully is not an error. */
  function CloneRepository(url: string,
                           details: (string, string) -> Result<RepoDetails>,
                           clone: RepoDetails -> Result<bool>,
                           addUpstream: (string, string) -> Result<bool>): (run: Run)
    ensures Resolve(url).None? ==> run == Run(Ok(()), [])
    ensures Resolve(url).Some? ==>
              1 <= |run.effects| <= 3 && run.effects[0] == FetchDetails(Resolve(url).value.0, Resolve(url).value.1)
    ensures Resolve(url).Some? && details(Resolve(url).value.0, Resolve(url).value.1).Ok? ==>
              |run.effects| >= 2 && run.effects[1] == GitClone(details(Resolve(url).value.0, Resolve(url).value.1).value)
    ensures |run.effects| == 3 ==>
              && Resolve(url).Some? && details(Resolve(url).value.0, Resolve(url).value.1).Ok?
              && details(Resolve(url).value.0, Resolve(url).value.1).value.parent.Some?
              && run.effects[2] == AddUpstream(Resolve(url).value.1,
                                               details(Resolve(url).value.0, Resolve(url).value.1).value.parent.value.sshUrl)
    ensures forall i :: 0 <= i < |run.effects| - 1 ==> Answer(run.effects[i], details, clone, addUpstream).Ok?
    ensures run.result.Err? ==>
              |run.effects| > 0 && Answer(run.effects[|run.effects| - 1], details, clone, addUpstream) == run.result
    ensures run.result.Ok? ==>
              forall i :: 0 <= i < |run.effects| ==> Answer(run.effects[i], details, clone, addUpstream).Ok?
  {
    match Resolve(url)
    case None => Run(Ok(()), [])
    case Some((owner, name)) =>
      var fetched := [FetchDetails(owner, name)];
      match details(owner, name)
      case Err(m) => Run(Err(m), fetched)
      case Ok(d) =>
        var cloned := fetched + [GitClone(d)];
        match clone(d)
        case Err(m) => Run(Err(m), cloned)
        case Ok(success) =>
          if success && d.fork && d.parent.Some? then
            var parentUrl := d.parent.value.sshUrl;
            var added := cloned + [AddUpstream(name, parentUrl)];
            match addUpstream(name, parentUrl)
            case Err(m) => Run(Err(m), added)
            case Ok(_) => Run(Ok(()), added)
          else
            Run(Ok(()), cloned)
  }

  /** `git remote add upstream` runs exactly when the URL resolves, the details and
      the clone calls return, the clone succeeded, the repository is a fork and it
      has a parent; it then runs in the repository's directory with the parent's
      SSH URL. */
  lemma UpstreamAddedExactly(url: string,
                             details: (string, string) -> Result<RepoDetails>,
                             clone: RepoDetails -> Result<bool>,
                             addUpstream: (string, string) -> Result<bool>,
                             dir: string, parentUrl: string)
    ensures AddUpstream(dir, parentUrl) in CloneRepository(url, details, clone, addUpstream).effects
            <==> Resolve(url).Some?
                 && var (owner, name) := Resolve(url).value;
                 && details(owner, name).Ok?
                 && var d := details(owner, name).value;
                 && clone(d).Ok? && clone(d).value && d.fork && d.parent.Some?
                 && dir == name && parentUrl == d.parent.value.sshUrl
  {
  }

  /** The command never clones anything for a URL it cannot parse, and reports
      success. */
  lemma InvalidUrlDoesNothing(url: string,
                              details: (string, string) -> Result<RepoDetails>,
                              clone: RepoDetails -> Result<bool>,
                              addUpstream: (string, string) -> Result<bool>)
    requires !(HttpsPrefix <= url) && !(SshPrefix <= url)
    ensures CloneRepository(url, details, clone, addUpstream) == Run(Ok(()), [])
  {
  }

  /** `fork_repository`: not implemented; succeeds and calls nothing. */
  function ForkRepository(url: string): (run: Run)
    ensures run.result.Ok? && run.effects == []
  {
    Run(Ok(()), [])
  }
}

=== FILE: config.dfy ===
/** The credential store: a `Config` record kept as one JSON file at
    `<config dir>/kit/config.json`.

    The file system is abstracted into a `Store`: the per-user configuration
    directory (absent when the platform has none), the state of the JSON file at
    the configuration path, and a separate cell for the OpenAI API key, whose
    reader and writer `src/config.rs` does not define.
 */
module Config {
  import opened Base

  /** `Config`: the record serialised to the configuration file. */
  datatype Config = Config(githubToken: string, githubUsername: string)

  /** What reading the configuration file yields: nothing (never saved), text that
      does not parse as a `Config`, or a record. */
  datatype FileState = Missing | Unparseable | Holds(config: Config)

  /** Path segments stand for a `PathBuf`. */
  type Path = seq<string>

  datatype Store = Store(configDir: Option<Path>, file: FileState, openAiKey: Option<string>)

  const NoConfigDir: string := "Could not find config directory"
  const ReadFailed: string := "config file could not be read"
  const ParseFailed: string := "config file is not a valid configuration"

  /** `config_path`: the configuration directory extended by `kit` and then by
      `config.json`; an error when the platform has no configuration directory. */
  function ConfigPath(s: Store): (r: Result<Path>)
    ensures r.Ok? <==> s.configDir.Some?
    ensures r.Ok? ==> |r.value| == |s.configDir.value| + 2
                      && r.value[..|s.configDir.value|] == s.configDir.value
                      && r.value[|s.configDir.value|] == "kit"
                      && r.value[|s.configDir.value| + 1] == "config.json"
    ensures r.Err? ==> r.msg == NoConfigDir
  {
    match s.configDir
    case None => Err(NoConfigDir)
    case Some(dir) => Ok(dir + ["kit"] + ["config.json"])
  }

  /** The record at the configuration path, or the error that reading or parsing it
      reports. Shared by both loaders. */
  function LoadConfig(s: Store): (r: Result<Config>)
    ensures r.Ok? <==> s.configDir.Some? && s.file.Holds?
    ensures r.Ok? ==> r.value == s.file.config
  {
    match ConfigPath(s)
    case Err(m) => Err(m)
    case Ok(_) =>
      match s.file
      case Missing => Err(ReadFailed)
      case Unparseable => Err(ParseFailed)
      case Holds(c) => Ok(c)
  }

  /** `load_token`: the saved token; an error when nothing was saved. */
  function LoadToken(s: Store): (r: Result<string>)
    ensures r.Ok? <==> LoadConfig(s).Ok?
    ensures s.file.Missing? ==> r.Err?
    ensures r.Ok? ==> r.value == s.file.config.githubToken
  {
    match LoadConfig(s)
    case Err(m) => Err(m)
    case Ok(c) => Ok(c.githubToken)
  }

  /** `load_username`: the saved username; an error when nothing was saved. */
  function LoadUsername(s: Store): (r: Result<string>)
    ensures r.Ok? <==> LoadConfig(s).Ok?
    ensures s.file.Missing? ==> r.Err?
    ensures r.Ok? ==> r.value == s.file.config.githubUsername
  {
    match LoadConfig(s)
    case Err(m) => Err(m)
    case Ok(c) => Ok(c.githubUsername)
  }

  /** The outcome of a write and the store after it. */
  datatype Saved = Saved(result: Result<()>, store: Store)

  /** `save_credentials`: builds the record from its arguments alone and overwrites
      the file with it. It fails, writing nothing, only when there is no
      configuration directory. Afterwards both loaders return what was saved, and
      nothing but the file changed. */
  function SaveCredentials(s: Store, token: string, username: string): (w: Saved)
    ensures w.result.Ok? <==> s.configDir.Some?
    ensures w.result.Err? ==> w.store == s
    ensures w.result.Ok? ==> LoadToken(w.store) == Ok(token) && LoadUsername(w.store) == Ok(username)
    ensures w.store.configDir == s.configDir && w.store.openAiKey == s.openAiKey
  {
    match ConfigPath(s)
    case Err(m) => Saved(Err(m), s)
    case Ok(_) => Saved(Ok(()), s.(file := Holds(Config(token, username))))
  }

  /** `save_token`, called by `login` but not defined in `src/config.rs`. It is
      modelled after `save_credentials`, the one writer defined there: a
      whole-record overwrite, with an empty username. */
  function SaveToken(s: Store, token: string): (w: Saved)
    ensures w.result.Ok? <==> s.configDir.Some?
    ensures w.result.Err? ==> w.store == s
    ensures w.result.Ok? ==> LoadToken(w.store) == Ok(token)
    ensures w.store.openAiKey == s.openAiKey
  {
    SaveCredentials(s, token, "")
  }

  /** `load_openai_api_key`, not defined in `src/config.rs`: reads the key cell,
      failing like every other access when there is no configuration directory. */
  function LoadOpenAiKey(s: Store): (r: Result<Option<string>>)
    ensures r.Ok? <==> s.configDir.Some?
    ensures r.Ok? ==> r.value == s.openAiKey
  {
    match ConfigPath(s)
    case Err(m) => Err(m)
    case Ok(_) => Ok(s.openAiKey)
  }

  /** `save_openai_api_key`, not defined in `src/config.rs`: writes the key cell
      and nothing else. */
  function SaveOpenAiKey(s: Store, key: string): (w: Saved)
    ensures w.result.Ok? <==> s.configDir.Some?
    ensures w.result.Err? ==> w.store == s
    ensures w.result.Ok? ==> LoadOpenAiKey(w.store) == Ok(Some(key))
    ensures w.store.file == s.file && w.store.configDir == s.configDir
  {
    match ConfigPath(s)
    case Err(m) => Saved(Err(m), s)
    case Ok(_) => Saved(Ok(()), s.(openAiKey := Some(key)))
  }

  /** A later save replaces an earlier one completely: nothing of the first record
      survives the second. */
  lemma SaveReplaces(s: Store, t1: string, u1: string, t2: string, u2: string)
    ensures SaveCredentials(SaveCredentials(s, t1, u1).store, t2, u2) == SaveCredentials(s, t2, u2)
  {
  }

  /** Saving does not read what was there: two stores that differ only in their
      file end up identical once the save succeeds. */
  lemma SaveIgnoresPrior(s1: Store, s2: Store, token: string, username: string)
    requires s1.configDir == s2.configDir && s1.openAiKey == s2.openAiKey
    ensures SaveCredentials(s1, token, username).result == SaveCredentials(s2, token, username).result
    ensures SaveCredentials(s1, token, username).result.Ok? ==>
              SaveCredentials(s1, token, username).store == SaveCredentials(s2, token, username).store
  {
  }
}

=== FILE: strings.dfy ===
/** The few `str` operations of Rust's standard library that the program relies on:
    `trim`, `split` on one character, `strip_prefix` and `strip_suffix`.

    Strings are sequences of `char`; Rust's byte-level UTF-8 representation is not
    visible to any of these operations, so nothing is lost by that choice.
 */
module Strings {
  import opened Base

  /** ASCII whitespace: the characters U+0009 to U+000D and the space. */
  predicate IsSpace(c: char) {
    c == ' ' || '\t' <= c <= '\r'
  }

  predicate AllSpace(s: string) {
    forall k :: 0 <= k < |s| ==> IsSpace(s[k])
  }

  predicate IsSuffix(x: string, s: string) {
    |x| <= |s| && s[|s| - |x|..] == x
  }

  /** The number of whitespace characters `s` starts with. */
  function LeadingSpaces(s: string): (n: nat)
    ensures n <= |s|
    ensures forall k :: 0 <= k < n ==> IsSpace(s[k])
    ensures n == |s| || !IsSpace(s[n])
    decreases |s|
  {
    if |s| > 0 && IsSpace(s[0]) then 1 + LeadingSpaces(s[1..]) else 0
  }

  /** Where the whitespace `s` ends with begins. */
  function TrailingStart(s: string): (m: nat)
    ensures m <= |s|
    ensures forall k :: m <= k < |s| ==> IsSpace(s[k])
    ensures m == 0 || !IsSpace(s[m - 1])
    decreases |s|
  {
    if |s| > 0 && IsSpace(s[|s| - 1]) then TrailingStart(s[..|s| - 1]) else |s|
  }

  /** `r` sits at offset `i` of `s` with only whitespace around it. */
  ghost predicate Framed(s: string, r: string, i: int) {
    0 <= i <= |s| - |r| && s[i..i + |r|] == r && AllSpace(s[..i]) && AllSpace(s[i + |r|..])
  }

  /** `str::trim`: the factor of `s` that neither starts nor ends with whitespace,
      once only whitespace is cut from either end. */
  function Trim(s: string): (r: string)
    ensures r == [] <==> AllSpace(s)
    ensures r != [] ==> !IsSpace(r[0]) && !IsSpace(r[|r| - 1])
    ensures exists i :: Framed(s, r, i)
  {
    var lead := LeadingSpaces(s);
    if lead == |s| then
      assert Framed(s, [], 0) by {
        assert s[..0] == [] && s[0..] == s;
      }
      []
    else
      var trail := TrailingStart(s);
      assert lead < trail;
      var r := s[lead..trail];
      assert Framed(s, r, lead) by {
        assert lead + |r| == trail;
      }
      r
  }

  /** The number of occurrences of `c` in `s`. */
  function Count(s: string, c: char): nat
    decreases |s|
  {
    if |s| == 0 then 0 else (if s[0] == c then 1 else 0) + Count(s[1..], c)
  }

  /** Glues `parts` back together with `sep` between neighbours; the inverse of `Split`. */
  function Join(parts: seq<string>, sep: char): string
    decreases |parts|
  {
    if |parts| == 0 then ""
    else if |parts| == 1 then parts[0]
    else parts[0] + [sep] + Join(parts[1..], sep)
  }

  /** `str::split` with a one-character pattern, collected into a vector: one piece
      more than there are separators, and no piece holds the separator. Empty
      pieces are kept. */
  function Split(s: string, sep: char): (parts: seq<string>)
    ensures |parts| == Count(s, sep) + 1
    ensures forall i :: 0 <= i < |parts| ==> sep !in parts[i]
    decreases |s|
  {
    if |s| == 0 then [""]
    else
      var rest := Split(s[1..], sep);
      if s[0] == sep then [""] + rest
      else
        var parts := [[s[0]] + rest[0]] + rest[1..];
        assert forall i :: 1 <= i < |parts| ==> parts[i] == rest[i];
        parts
  }

  /** Round trip: the pieces of `s`, joined with the separator, give back `s`. */
  lemma {:induction false} JoinSplit(s: string, sep: char)
    ensures Join(Split(s, sep), sep) == s
    decreases |s|
  {
    if |s| > 0 {
      var rest := Split(s[1..], sep);
      JoinSplit(s[1..], sep);
      assert s == [s[0]] + s[1..];
      if s[0] != sep {
        var parts := [[s[0]] + rest[0]] + rest[1..];
        assert Split(s, sep) == parts;
        if |rest| > 1 {
          assert rest == [rest[0]] + rest[1..];
          assert Join(rest, sep) == rest[0] + [sep] + Join(rest[1..], sep);
          assert parts[1..] == rest[1..];
        }
      }
    }
  }

  /** `str::strip_prefix`. */
  function StripPrefix(s: string, p: string): (r: Option<string>)
    ensures r.Some? <==> p <= s
    ensures r.Some? ==> p + r.value == s
  {
    if p <= s then Some(s[|p|..]) else None
  }

  /** `str::strip_suffix`. */
  function StripSuffix(s: string, x: string): (r: Option<string>)
    ensures r.Some? <==> IsSuffix(x, s)
    ensures r.Some? ==> r.value + x == s
  {
    if IsSuffix(x, s) then Some(s[..|s| - |x|]) else None
  }

  /** Splitting a piece free of the separator, followed by anything, leaves that
      piece at the front of the first part. */
  lemma {:induction false} SplitPrefix(p: string, t: string, sep: char)
    requires sep !in p
    ensures Split(p + t, sep) == [p + Split(t, sep)[0]] + Split(t, sep)[1..]
    decreases |p|
  {
    if |p| > 0 {
      var u := p[1..] + t;
      assert p + t == [p[0]] + u;
      assert (p + t)[1..] == u;
      SplitPrefix(p[1..], t, sep);
      assert [p[0]] + (p[1..] + Split(t, sep)[0]) == p + Split(t, sep)[0];
    } else {
      var parts := Split(t, sep);
      assert p + t == t;
      assert p + parts[0] == parts[0];
      assert parts == [parts[0]] + parts[1..];
    }
  }

  /** Round trip: separator-free pieces joined by the separator split back into
      exactly those pieces. */
  lemma {:induction false} SplitJoin(parts: seq<string>, sep: char)
    requires |parts| >= 1
    requires forall i :: 0 <= i < |parts| ==> sep !in parts[i]
    ensures Split(Join(parts, sep), sep) == parts
    decreases |parts|
  {
    if |parts| == 1 {
      SplitPrefix(parts[0], "", sep);
      assert parts[0] + "" == parts[0];
    } else {
      var tail := Join(parts[1..], sep);
      SplitJoin(parts[1..], sep);
      SplitSeparator(tail, sep);
      SplitPrefix(parts[0], [sep] + tail, sep);
      assert Join(parts, sep) == parts[0] + ([sep] + tail);
      var after := Split([sep] + tail, sep);
      assert after[0] == "" && after[1..] == parts[1..];
      assert parts[0] + after[0] == parts[0];
      assert parts == [parts[0]] + parts[1..];
    }
  }

  lemma SplitSeparator(t: string, sep: char)
    ensures Split([sep] + t, sep) == [""] + Split(t, sep)
  {
    assert ([sep] + t)[1..] == t;
  }
}
